=== FILE: README.md ===
# render_c frame compositor, modelled in Dafny

This project models the per-cell frame compositor of pycraft's `render_c`
extension (`rendermodule.c`). The compositor turns a sparse tile world into one
frame for two sinks:

- an ANSI terminal stream that writes only the cells that changed;
- a 36 x 32 LED panel wired as one serpentine strip.

The model covers these parts:

- **World lookup and glyph choice.** `Terrain` looks up blocks in the sparse
  world and picks the edge-aware glyph variant.
- **Lighting.** `Lighting` models elliptical falloff, the occlusion mask, the
  flag that decides whether a light takes part, and the brightest-wins
  lightness.
- **Background.** `Background` models the background-object hit test, the
  underground grey and the simple (non-fancy) sky.
- **Compositor.** `Compositor` models the object overlay and the combination
  of background, foreground and style into one cell.
- **Terminal sink.** `TerminalSink` models the ECMA-48 CUP cursor control,
  `setup_frame` and the diff cache of `terminal_out`.
- **LED sink.** `LedSink` models the serpentine index, the two index
  corrections and the G,R,B packing.
- **Render loop.** `Render` models which cells the loop visits and the fold
  that sends each cell to the sinks. It proves two end-to-end facts: a repeat
  render writes nothing to the terminal, and a resize redraws every cell.

The block catalog (`data.c`) and the colour codec (`colours.c`) are not part
of this model. They are fields of the `Scene` and `Codec` records:
- the catalog is a total function from terrain code to `BlockData`;
- `colour_eq`, `colour_str`, `CYAN` and `MAX_COLOUR_CODE_LEN` are opaque
  values;
- the HSV paths of fancy lighting are opaque functions.

A codec value stands for one render call: its fancy functions may depend on
that call's `day`, lights and sky colour, which stay fixed while the call
runs. The terrain shading also receives the viewport's left edge, because
`get_block_light` reads the slice height of column `world_x + x`.

The colour sentinel `r = -1` becomes `Colour = Unset | Known(rgb)`. The model
tests `Known?` at each place the C tests `r`. Light falloff and luma are
computed exactly over `real`.

Some behaviours of the code differ from what its names and comments suggest.
The model follows the code:
- **No flagged light.** `get_block_lightness` starts its minimum at 1 and
  returns `1 - min`. So it returns 0, not 1, when no light is flagged
  (`Lighting.BlockLightness`).
- **Occlusion.** The occlusion mask is 0 or -1. So a light with `z >= 0` is
  always flagged, whatever terrain lies in between (`Lighting.Flagged`).
- **Flagged lights out of range.** A flagged light that does not reach the
  pixel has falloff 1. It still contributes its luma to the minimum.
- **Background hit test.** The test checks whether the object's origin lies
  in the rectangle that starts at the pixel. An object therefore covers the
  cells up and to the left of its origin (`Background.Hits`).
- **LED corrections.** The two index corrections map the 1152 panel cells
  onto 1150 strip positions. Raw positions 648 and 649 share a position, and
  so do 792 and 793 (`LedSink.CorrectedCollisions`).
- **Buffer capacity.** `setup_frame` budgets `sizeof(POS_STR_FORMAT)`, which
  is 11 bytes, per cell for the cursor control. That is enough while both
  1-based coordinates have at most three digits
  (`TerminalSink.PosStrShort`). From coordinate 999 on, a single cursor
  control can take 12 bytes (`TerminalSink.PosStrOutgrowsFormat`). Within
  999 x 999 cells, and with a codec that keeps its `MAX_COLOUR_CODE_LEN`
  promise, the buffer never fills (`Render.RenderNeverOverflows`).

## Model

| member | source | states |
|---|---|---|
| `Terrain.GetBlock` | rendermodule.c:101-117 | an absent column or a row outside the column reads as code 0; otherwise the stored code |
| `Terrain.GetChar` | rendermodule.c:359-381 | base glyph when the cell below is non-zero and solid; else the left variant if the left neighbour is non-zero and solid and the variant is non-zero; else the right variant under the same conditions; else the base glyph; a zero variant is never returned |
| `RenderTypes.Luma` | rendermodule.c:120-124 | BT.709 luma (0.2126, 0.7152, 0.0722) lies in [0,1] for channels in [0,1] and equals the channel value for greys |
| `Lighting.FalloffInside` | rendermodule.c:127-132 | for a non-zero radius, `circle_dist` is non-negative and below 1 exactly when dx² + 4·dy² < r² (vertical radius half the horizontal one) |
| `Lighting.Lit` | rendermodule.c:144-152 | the capped falloff lies in [0,1] and is below 1 exactly inside the light's ellipse; a zero radius reaches no pixel |
| `Lighting.SliceHeight` | rendermodule.c:139 | the slice height of a column present in `slice_heights` is its entry; a missing column reads as -1, the value `PyLong_AsLong(NULL)` returns |
| `Lighting.MissingSliceDepth` | rendermodule.c:244-245 | for a column without a slice height, a row counts as underground exactly when it lies below row 201 |
| `Lighting.LightMask` | rendermodule.c:135-141 | returns only 0 or -1, and 0 exactly when the block's catalog entry is solid or (200 - y) < slice height |
| `Lighting.Flagged` | rendermodule.c:163-206 | a light is flagged exactly when it reaches the pixel or z ≥ mask of (left + lx, ly); z ≥ 0 is always flagged; z < -1 is flagged only inside the ellipse |
| `Lighting.Dimmest` | rendermodule.c:193-213 | the running minimum is at most the start value, at most every flagged light's lit·luma, and equal to the start value or to one flagged light's lit·luma |
| `Lighting.BlockLightness` | rendermodule.c:187-216 | result is 1 - min(1, min over flagged lights of lit·luma): non-negative, 0 with no flagged light, at most 1 when every luma is in [0,1] |
| `Lighting.LightsCombineByMaximum` | rendermodule.c:193-215 | lightness over lights a + b is the larger of the lightness over a and over b: lights combine by a minimum, not a sum, and order does not matter |
| `Background.Hits` | rendermodule.c:342-343 | the hit test holds exactly when ox - width < x ≤ ox and oy - height < y ≤ oy |
| `Background.FirstHit` | rendermodule.c:332-348 | the scan returns the first background object that hits, or none when no object hits |
| `Background.AnyLit` | rendermodule.c:308-318 | the early-exit scan is true exactly when some light's falloff is below 1 at the pixel |
| `Background.LightColour` | rendermodule.c:238-323 | underground: grey 0.1, or (0.1 + lightness)/2 per channel with fancy lights; above ground without fancy lights: CYAN if some light reaches the pixel, else the sky colour unchanged; above ground with fancy lights: the codec's blend |
| `Background.Sky` | rendermodule.c:326-356 | the first background object hit supplies the colour unless that colour is unset; with no hit or an unset colour the result is `get_light_colour` of the sky colour |
| `Compositor.FirstAt` | rendermodule.c:397-419 | the scan returns the first object with ox == x and oy == y, or none |
| `Compositor.ObjPixel` | rendermodule.c:394-420 | no match leaves the overlay empty; a match yields the first object's char and its colour, or the catalog fg colour of that char when the object's colour is unset |
| `Compositor.BlockLight` | rendermodule.c:219-235 | a lit terrain colour is never unset and, without fancy lights, is the catalog colour unchanged |
| `Compositor.CalcPixel` | rendermodule.c:423-463 | style comes from the front block; bg is the lit block bg if set, else the sky; a non-zero object overlay supplies glyph and fg; otherwise the glyph is `get_char`, the fg is the lit block fg (shaded at screen column x, world row y) when the block fg is set, and unset otherwise |
| `RenderTypes.CellEq` | rendermodule.c:384-391 | cell equality compares glyph, fg, bg and style, and is reflexive when `colour_eq` is |
| `Decimal.ParseShowNat` | rendermodule.c:57-63 | the decimal digits of a natural number read back as that number |
| `Decimal.ParseShowInt` | rendermodule.c:57-63 | the `%ld` text of any integer reads back as that integer |
| `TerminalSink.CupRoundTrip` | rendermodule.c:57-64 | the ECMA-48 CUP text ESC [ line ; column H parses back to (line, column) |
| `TerminalSink.PosStr` | rendermodule.c:60-64 | `pos_str(x, y)` starts with ESC [, ends with H, and parses back as line y + 1 and column x + 1 |
| `TerminalSink.PosStrShort` | rendermodule.c:57-64 | for 0 ≤ x, y < 999 the cursor control is at most 10 characters, one less than `sizeof(POS_STR_FORMAT)` |
| `TerminalSink.PosStrOutgrowsFormat` | rendermodule.c:57-58 | at x = y = 999 the cursor control is 12 characters, more than the 11 bytes `sizeof(POS_STR_FORMAT)` counts |
| `TerminalSink.SlotInRange` | rendermodule.c:474 | for 0 ≤ x < width and 0 ≤ y < height the cache index y·width + x lies in [0, width·height) |
| `TerminalSink.SlotInjective` | rendermodule.c:474 | two cells of one frame never share a cache index |
| `TerminalSink.SetupFrame` | rendermodule.c:521-550 | resize is set exactly when width or height differs from the stored value; the new dimensions are stored, the write position restarts at 0, a resize sizes the buffer as width·height·(11 + max colour length) and a cache of width·height slots; a resize fails exactly when one dimension is negative and the other positive, the negative-area request; a capacity sized for the current dimensions stays so |
| `TerminalSink.TerminalOut` | rendermodule.c:471-490 | a cell is written exactly when it differs from `last_frame[y*width+x]` or resize is set; the write stores the cell in that slot only and appends ESC [ y+1 ; x+1 H and the colour text; failure exactly when the position reaches the buffer size |
| `TerminalSink.RepeatWriteIsSilent` | rendermodule.c:471-490 | with a reflexive `colour_eq` and no resize, writing the same cell twice writes nothing the second time |
| `LedSink.RawIndex` | rendermodule.c:504-508 | the raw serpentine index of a panel cell lies in [0, 1152) |
| `LedSink.RawIndexBijective` | rendermodule.c:504-508 | the raw index, (31 - y)·36 + x' with x' = 35 - x on even flipped rows, is a bijection from the 36 x 32 panel onto [0, 1152) |
| `LedSink.RawIndexInjective` | rendermodule.c:504-508 | distinct panel cells have distinct raw indices |
| `LedSink.CorrectedIndex` | rendermodule.c:510-513 | the corrected index lies in [0, 1149] and at most 2 below the raw index |
| `LedSink.CorrectedCollisions` | rendermodule.c:510-513 | two raw positions share a corrected index exactly when they are 648 and 649 or 792 and 793 |
| `LedSink.LedIndex` | rendermodule.c:504-513 | every panel cell lands inside the strip |
| `LedSink.Channel` | rendermodule.c:515 | a channel in [0,1] becomes the byte b with b ≤ 255·v < b + 1 |
| `LedSink.PackGrb` | rendermodule.c:515 | the packed word is G<<16 \| R<<8 \| B: each byte reads back from its field and the top byte is 0 |
| `LedSink.NeopixelsOut` | rendermodule.c:493-518 | writes the packed fg if set, else the packed bg if set, at the cell's corrected index and nowhere else; with neither, the strip is untouched |
| `Render.Effective` | rendermodule.c:620-627 | with LED output on, the window is forced to 36 x 32 at the requested top-left corner; otherwise the viewport is unchanged |
| `Render.RowVisits` | rendermodule.c:650-689 | a column's visits are exactly its rows inside [top, bottom), each at local (world x - left, world y - top) with its own code |
| `Render.Visits` | rendermodule.c:635-692 | the loop's visits are the stored cells inside the viewport of the columns in dictionary order, each at its local position |
| `Render.VisitsOnce` | rendermodule.c:638-689 | when the dictionary yields each column once, no world cell is visited twice |
| `Render.VisitsExactly` | rendermodule.c:638-660 | with every column yielded exactly once, a cell is visited exactly when it is stored and left ≤ world x < right and top ≤ world y < bottom; no cell is visited twice; each visit carries the cell's code and a cache index below width·height |
| `Render.VisitCount` | rendermodule.c:638-689 | a loop over each column once visits at most width·height cells |
| `Render.RenderCells` | rendermodule.c:656-689 | the loop keeps the cache valid and the dimensions fixed; it succeeds only when no visited code is 0, a code of 0 stops it with an error, a buffer overflow is only possible with terminal output on, and disabled sinks are untouched |
| `Render.Render` | rendermodule.c:620-692 | the dictionary yields every column of the world exactly once; allocation fails exactly for a resize to a window with one negative and one positive dimension (a negative area); otherwise the sink state takes the effective window's dimensions; success implies no visited cell has code 0 |
| `Render.CacheKept` | rendermodule.c:474-477 | once the cache agrees with a visit's cell, the rest of the loop keeps it so |
| `Render.CacheFilled` | rendermodule.c:471-490 | a completed loop with terminal output leaves the cache agreeing with every visited cell |
| `Render.NothingChanged` | rendermodule.c:471-490 | with no resize and a cache agreeing with every visited cell, the loop completes and leaves the terminal state unchanged; the LED strip is still rewritten at every visit |
| `Render.RepeatRenderIsSilent` | rendermodule.c:596-709 | rendering the same scene twice with the same viewport and a reflexive `colour_eq`, when the first call succeeds: the second call succeeds, writes nothing to the terminal and leaves the cache as the first call left it |
| `Render.ResizedStep` | rendermodule.c:475-480 | after a resize, one visit appends exactly its cursor control and colour text |
| `Render.ResizedLoopWritesAll` | rendermodule.c:656-689 | after a resize, a completed loop appends every visit's cursor control and colour text in visit order |
| `Render.ResizeRedrawsEveryCell` | rendermodule.c:521-550 | a change of either dimension makes the next completed render write every visited cell, whatever the cache held |
| `Render.WriteFits` | rendermodule.c:471-490 | one cell write appends at most 10 + max colour length characters, and fails only once the buffer position reaches the capacity |
| `Render.LoopFits` | rendermodule.c:656-689 | when the buffer has room for 10 + max colour length characters per remaining visit, the loop never stops with a full buffer |
| `Render.RenderNeverOverflows` | rendermodule.c:536-545 | a codec whose colour texts keep within `MAX_COLOUR_CODE_LEN`, each column once and a window of at most 999 x 999 cells: the render never stops with a full buffer, and the capacity stays sized for the current dimensions |

## Left out

- Python C-API marshalling is not modelled: argument parsing, dict and list iteration, reference counting. The world is a `map<int, seq<char>>` and the dictionary iteration order is an input sequence of keys. The "column is not a list" and "map is not a dict" errors cannot arise with these types.
- `PyString_AsChar` narrows the first wide character to a C `char`; terrain codes are modelled as the resulting characters directly.
- `RenderTypes.Colour`: the code marks an unset colour only by r = -1 and leaves g and b uninitialised (`calc_pixel` at rendermodule.c:428-429, the uninitialised `printable_char` at 669, `PyColour_AsColour(NULL)` at 174-175), and `terminal_out` copies and compares those bytes (475-477). The model has a single `Unset` value, so `TerminalSink.RepeatWriteIsSilent` and `Render.RepeatRenderIsSilent` hold of the code only if `colour_eq` ignores g and b when r is -1; colours.c, which defines `colour_eq`, is not part of this model.
- A light without a `colour` entry (unset red, uninitialised green and blue) is not modelled; every light carries an RGB colour.
- A `Known` colour with r < 0 is not modelled; `Known` stands for r >= 0 only. The code reads r = -1 as unset everywhere, so an object colour of exactly -1 gets the catalog fg (rendermodule.c:410-412). Its four sentinel tests (`r == -1` at 410, `r >= 0` at 433 and 456, `r < 0` at 350, `r > -1` at 497 and 499) disagree for r < -1, which one test treats as set and the others as unset.
- Floating-point rounding in `circle_dist`, `lightness` and the lightness minimum is not modelled; all of them are exact over `real`.
- The fancy-lights paths of `get_block_light` and the above-ground branch of `get_light_colour` use HSV conversion, `lerp` and `lerp_colour`, which live in colours.c. They are opaque functions of the codec. The `day` argument feeds only these paths.
- `colour_str`, `colour_eq`, `CYAN` and `MAX_COLOUR_CODE_LEN` come from colours.c, which is not part of this model. They are opaque values of the codec.
- The ws2811 strip driver is hardware I/O and is not modelled: `ledstring` configuration, `init_neopixels`, `deinit_neopixels`, the signal handlers, and the final `ws2811_render` with its teardown on failure.
- `debug()` and the final `fwrite` of the buffer to stdout are I/O. The buffer contents are the model's output.
- Memory exhaustion in `malloc` is not modelled; only a negative size request fails. After a failed allocation the C keeps the new dimensions and a NULL buffer. The model returns the previous sink state with status `AllocFailed`.
- The unchecked `last_frame` allocation and the leak of the old buffers on resize are not modelled.
- The C writes the cursor and colour text before checking the capacity, so it can write past the buffer. The model's buffer is an unbounded sequence and reports failure at the same point.
- `TerminalSink.SetupFrame`: the uninitialised contents of a freshly allocated cache are the parameter `heap`, so every lemma holds whatever those contents are.
- `LedSink.Channel`: clamps channel values outside [0,1] to 0 or 255. The C's `(int)(v*255)` there either lets bits overflow into the neighbouring field or has no defined value.
- `circle_dist` with a zero radius divides by zero. The model uses the IEEE outcome (infinity or NaN, which `fmin` caps to 1), so such a light reaches no pixel.
- `Lighting.SliceHeight`: a missing slice height also leaves a Python `SystemError` pending, because `PyLong_AsLong(NULL)` raises one. Exceptions are not part of this model; only the -1 it returns is.
- `Render.RenderNeverOverflows`: proved only for windows of at most 999 x 999 cells. Beyond that a cursor control can outgrow the 11 bytes budgeted per cell, so the capacity argument no longer applies.

=== FILE: background.dfy ===
/** Background resolution: background objects first, then the colour behind
    them (underground grey or open sky). */
module Background {
  import opened RenderTypes
  import opened Lighting

  /** The underground ambient grey. */
  const Grey: Rgb := Rgb(0.1, 0.1, 0.1)

  /** The background hit test as the renderer writes it: the object's origin
      must lie in the width-by-height rectangle whose corner is the pixel.
      Read from the object's side, it covers the cells up and to the left of
      its origin, origin included. */
  function Hits(o: BkObject, x: int, y: int): (h: bool)
    ensures h <==> o.x - o.width < x <= o.x && o.y - o.height < y <= o.y
  {
    x <= o.x < x + o.width && y <= o.y < y + o.height
  }

  /** The index of the first background object hit at (x, y). */
  function FirstHit(objs: seq<BkObject>, x: int, y: int): (r: Option<nat>)
    ensures r.Some? ==> r.value < |objs| && Hits(objs[r.value], x, y)
    ensures r.Some? ==> forall j :: 0 <= j < r.value ==> !Hits(objs[j], x, y)
    ensures r.None? ==> forall j :: 0 <= j < |objs| ==> !Hits(objs[j], x, y)
    decreases |objs|
  {
    if |objs| == 0 then None
    else if Hits(objs[0], x, y) then Some(0)
    else
      match FirstHit(objs[1..], x, y)
      case None => None
      case Some(i) => Some(i + 1)
  }

  /** The colour behind an uncovered pixel at screen column x, world row y.
      Underground it is the ambient grey, averaged with the lightness when
      fancy lights are on. Above ground with fancy lights off it is the
      codec's cyan when any light reaches the pixel, else the given colour.
      Above ground with fancy lights on it is the codec's HSV blend. */
  function LightColour(sc: Scene, left: int, x: int, y: int, behind: Colour): (c: Colour)
    ensures Underground(sc.slices, left + x, y) && !sc.settings.fancyLights ==> c == Known(Grey)
    ensures Underground(sc.slices, left + x, y) && sc.settings.fancyLights ==>
              var b := BlockLightness(sc, left, x, y);
              c == Known(Rgb((0.1 + b) * 0.5, (0.1 + b) * 0.5, (0.1 + b) * 0.5))
    ensures !Underground(sc.slices, left + x, y) && !sc.settings.fancyLights ==>
              ((exists i :: 0 <= i < |sc.lights| && InEllipse(x, y, sc.lights[i])) ==> c == Known(sc.codec.cyan))
              && ((forall i :: 0 <= i < |sc.lights| ==> !InEllipse(x, y, sc.lights[i])) ==> c == behind)
    ensures !Underground(sc.slices, left + x, y) && sc.settings.fancyLights ==> c == sc.codec.fancyOpenSky(x, y)
  {
    if Underground(sc.slices, left + x, y) then
      if sc.settings.fancyLights then
        var b := BlockLightness(sc, left, x, y);
        Known(Rgb((Grey.r + b) * 0.5, (Grey.g + b) * 0.5, (Grey.b + b) * 0.5))
      else
        Known(Grey)
    else if sc.settings.fancyLights then
      sc.codec.fancyOpenSky(x, y)
    else if AnyLit(sc.lights, x, y) then
      Known(sc.codec.cyan)
    else
      behind
  }

  /** Whether any light reaches (x, y); the scan stops at the first one. */
  function AnyLit(ls: seq<Light>, x: int, y: int): (r: bool)
    ensures r <==> exists i :: 0 <= i < |ls| && InEllipse(x, y, ls[i])
    decreases |ls|
  {
    if |ls| == 0 then false
    else if Lit(x, y, ls[0]) < 1.0 then true
    else
      assert forall i :: 1 <= i < |ls| ==> ls[i] == ls[1..][i - 1];
      AnyLit(ls[1..], x, y)
  }

  /** The background at screen column x, world row y: the colour of the
      first background object hit, or, when none is hit or that colour is
      unset, the colour behind it. */
  function Sky(sc: Scene, left: int, x: int, y: int): (c: Colour)
    ensures (forall i :: 0 <= i < |sc.bkObjects| ==> !Hits(sc.bkObjects[i], x, y))
            ==> c == LightColour(sc, left, x, y, sc.skyColour)
    ensures forall i :: 0 <= i < |sc.bkObjects| && Hits(sc.bkObjects[i], x, y)
              && (forall j :: 0 <= j < i ==> !Hits(sc.bkObjects[j], x, y))
              ==> c == if sc.bkObjects[i].colour.Known? then sc.bkObjects[i].colour
                       else LightColour(sc, left, x, y, sc.skyColour)
  {
    var hit := match FirstHit(sc.bkObjects, x, y)
               case None => Unset
               case Some(i) => sc.bkObjects[i].colour;
    if hit.Known? then hit else LightColour(sc, left, x, y, sc.skyColour)
  }
}

=== FILE: compositor.dfy ===
/** The pixel compositor: object overlay, terrain lighting and the
    combination of background, foreground and style into one cell. */
module Compositor {
  import opened RenderTypes
  import opened Terrain
  import opened Lighting
  import opened Background

  predicate At(o: FgObject, x: int, y: int) {
    o.x == x && o.y == y
  }

  /** The index of the first foreground object at exactly (x, y). */
  function FirstAt(objs: seq<FgObject>, x: int, y: int): (r: Option<nat>)
    ensures r.Some? ==> r.value < |objs| && At(objs[r.value], x, y)
    ensures r.Some? ==> forall j :: 0 <= j < r.value ==> !At(objs[j], x, y)
    ensures r.None? ==> forall j :: 0 <= j < |objs| ==> !At(objs[j], x, y)
    decreases |objs|
  {
    if |objs| == 0 then None
    else if At(objs[0], x, y) then Some(0)
    else
      match FirstAt(objs[1..], x, y)
      case None => None
      case Some(i) => Some(i + 1)
  }

  /** The object overlay at screen column x, world row y: the code and colour
      of the first object there, with an unset colour replaced by the
      catalog's foreground colour for that code; None when no object is there. */
  function ObjPixel(sc: Scene, x: int, y: int): (r: Option<(char, Colour)>)
    ensures r.None? <==> forall j :: 0 <= j < |sc.objects| ==> !At(sc.objects[j], x, y)
    ensures r.Some? ==>
              exists i :: 0 <= i < |sc.objects| && At(sc.objects[i], x, y)
                && (forall j :: 0 <= j < i ==> !At(sc.objects[j], x, y))
                && r.value.0 == sc.objects[i].ch
                && r.value.1 == if sc.objects[i].colour.Known? then sc.objects[i].colour
                                else sc.cat(sc.objects[i].ch).fg
  {
    match FirstAt(sc.objects, x, y)
    case None => None
    case Some(i) =>
      var o := sc.objects[i];
      Some((o.ch, if o.colour.Unset? then sc.cat(o.ch).fg else o.colour))
  }

  /** A set terrain colour as lit at (x, y): unchanged without fancy lights,
      shaded by the codec with them. Never unset. */
  function BlockLight(sc: Scene, left: int, x: int, y: int, colour: Rgb): (c: Colour)
    ensures c.Known?
    ensures !sc.settings.fancyLights ==> c.rgb == colour
  {
    if sc.settings.fancyLights then Known(sc.codec.fancyBlockLight(left, x, y, colour))
    else Known(colour)
  }

  /** Whether an object overlay replaces the terrain glyph: an object is at
      the cell and its code is not the void code. */
  predicate Overlaid(sc: Scene, x: int, y: int) {
    var o := ObjPixel(sc, x, y);
    o.Some? && o.value.0 != Void
  }

  /** The cell for terrain code `key` at screen column x, world cell
      (worldX, worldY), with the viewport's left edge at `left`. */
  function CalcPixel(sc: Scene, left: int, x: int, worldX: int, worldY: int, key: char): (cell: Cell)
    // The style always comes from the front block.
    ensures cell.style == sc.cat(key).style
    // The background is the block's own lit background, else the sky.
    ensures sc.cat(key).bg.Known? ==> cell.bg == BlockLight(sc, left, x, worldY, sc.cat(key).bg.rgb)
    ensures sc.cat(key).bg.Unset? ==> cell.bg == Sky(sc, left, x, worldY)
    // An object overlay wins over the terrain glyph and colour.
    ensures Overlaid(sc, x, worldY) ==>
              cell.character == ObjPixel(sc, x, worldY).value.0
              && cell.fg == ObjPixel(sc, x, worldY).value.1
    // Otherwise the glyph is edge-aware and the terrain colour is lit only if set.
    ensures !Overlaid(sc, x, worldY) ==>
              cell.character == GetChar(sc.world, sc.cat, worldX, worldY, sc.cat(key))
              && (cell.fg.Unset? <==> sc.cat(key).fg.Unset?)
              && (sc.cat(key).fg.Known? && !sc.settings.fancyLights ==> cell.fg == sc.cat(key).fg)
    ensures !Overlaid(sc, x, worldY) && sc.cat(key).fg.Known? ==>
              cell.fg == BlockLight(sc, left, x, worldY, sc.cat(key).fg.rgb)
  {
    var front := sc.cat(key);
    var bg := if front.bg.Known? then BlockLight(sc, left, x, worldY, front.bg.rgb)
              else Sky(sc, left, x, worldY);
    var obj := ObjPixel(sc, x, worldY);
    if obj.Some? && obj.value.0 != Void then
      Cell(obj.value.0, obj.value.1, bg, front.style)
    else
      var fg := if front.fg.Known? then BlockLight(sc, left, x, worldY, front.fg.rgb) else Unset;
      Cell(GetChar(sc.world, sc.cat, worldX, worldY, front), fg, bg, front.style)
  }
}

=== FILE: decimal.dfy ===
/** Decimal text of integers, as printf's "%ld" writes it, and its parser. */
module Decimal {
  import opened RenderTypes

  predicate IsDigit(c: char) {
    '0' <= c <= '9'
  }

  predicate AllDigits(s: string) {
    forall i :: 0 <= i < |s| ==> IsDigit(s[i])
  }

  function DigitChar(d: int): (c: char)
    requires 0 <= d < 10
    ensures IsDigit(c) && c as int - '0' as int == d
  {
    ('0' as int + d) as char
  }

  /** The decimal digits of n, most significant first, without leading zeros. */
  function ShowNat(n: nat): (s: string)
    ensures |s| >= 1 && AllDigits(s)
    decreases n
  {
    if n < 10 then [DigitChar(n)] else ShowNat(n / 10) + [DigitChar(n % 10)]
  }

  /** The value of a digit string. */
  function ParseNat(s: string): nat
    requires AllDigits(s)
    decreases |s|
  {
    if |s| == 0 then 0
    else ParseNat(s[..|s| - 1]) * 10 + (s[|s| - 1] as int - '0' as int)
  }

  lemma {:induction false} ParseShowNat(n: nat)
    ensures ParseNat(ShowNat(n)) == n
    decreases n
  {
    if n >= 10 {
      var s := ShowNat(n);
      assert s[..|s| - 1] == ShowNat(n / 10);
      ParseShowNat(n / 10);
    }
  }

  function Pow10(k: nat): (p: nat)
    ensures p >= 1
  {
    if k == 0 then 1 else 10 * Pow10(k - 1)
  }

  /** A number below 10^k has at most k digits. */
  lemma {:induction false} ShowNatLength(n: nat, k: nat)
    requires k >= 1 && n < Pow10(k)
    ensures |ShowNat(n)| <= k
    decreases k
  {
    if n >= 10 {
      assert n / 10 < Pow10(k - 1);
      ShowNatLength(n / 10, k - 1);
    }
  }

  /** "%ld": an optional minus sign, then the digits of the magnitude. */
  function ShowInt(i: int): (s: string)
    ensures |s| >= 1
    ensures forall k :: 0 <= k < |s| ==> IsDigit(s[k]) || s[k] == '-'
  {
    if i < 0 then "-" + ShowNat(-i) else ShowNat(i)
  }

  function ParseInt(s: string): Option<int> {
    if |s| >= 2 && s[0] == '-' && AllDigits(s[1..]) then Some(0 - ParseNat(s[1..]) as int)
    else if |s| >= 1 && AllDigits(s) then Some(ParseNat(s))
    else None
  }

  lemma ParseShowInt(i: int)
    ensures ParseInt(ShowInt(i)) == Some(i)
  {
    var s := ShowInt(i);
    if i < 0 {
      assert s[1..] == ShowNat(-i);
      ParseShowNat(-i);
    } else {
      ParseShowNat(i);
    }
  }
}

=== FILE: lighting.dfy ===
/** Light falloff, the occlusion mask and the per-pixel lightness. */
module Lighting {
  import opened RenderTypes
  import opened Terrain

  /** The baseline below which world generation measures slice heights. */
  const WorldGenHeight: int := 200

  /** Elliptical falloff: the vertical radius is half the horizontal one.
      Requires a non-zero radius; `Lit` handles the zero radius. */
  function CircleDist(tx: int, ty: int, x: int, y: int, r: int): real
    requires r != 0
  {
    var dx := (tx - x) as real;
    var dy := (ty - y) as real;
    var rr := r as real;
    dx * dx / (rr * rr) + dy * dy / ((rr * 0.5) * (rr * 0.5))
  }

  /** The ellipse test on integers: (px, py) lies strictly inside the light's
      ellipse. */
  predicate InEllipse(px: int, py: int, l: Light) {
    var dx := px - l.x;
    var dy := py - l.y;
    l.radius != 0 && dx * dx + 4 * (dy * dy) < l.radius * l.radius
  }

  lemma CircleDistForm(tx: int, ty: int, x: int, y: int, r: int)
    requires r != 0
    ensures CircleDist(tx, ty, x, y, r)
            == ((tx - x) * (tx - x) + 4 * ((ty - y) * (ty - y))) as real / (r * r) as real
  {
    var dx := (tx - x) as real;
    var dy := (ty - y) as real;
    var rr := r as real;
    assert rr * rr > 0.0;
    assert (rr * 0.5) * (rr * 0.5) == rr * rr / 4.0;
    assert dy * dy / (rr * rr / 4.0) == 4.0 * (dy * dy) / (rr * rr);
    assert ((tx - x) * (tx - x)) as real == dx * dx;
    assert ((ty - y) * (ty - y)) as real == dy * dy;
    assert (r * r) as real == rr * rr;
  }

  lemma RatioBelowOne(n: int, d: int)
    requires n >= 0 && d > 0
    ensures n as real / d as real >= 0.0
    ensures n as real / d as real < 1.0 <==> n < d
  {
    var q := n as real / d as real;
    assert q * d as real == n as real;
    if n < d {
      assert q < 1.0;
    } else {
      assert q >= 1.0;
    }
  }

  /** The falloff is never negative, and below 1 exactly inside the ellipse. */
  lemma {:induction false} FalloffInside(px: int, py: int, l: Light)
    requires l.radius != 0
    ensures CircleDist(px, py, l.x, l.y, l.radius) >= 0.0
    ensures CircleDist(px, py, l.x, l.y, l.radius) < 1.0 <==> InEllipse(px, py, l)
  {
    CircleDistForm(px, py, l.x, l.y, l.radius);
    var dx := px - l.x;
    var dy := py - l.y;
    assert dx * dx >= 0 && dy * dy >= 0;
    assert l.radius * l.radius > 0;
    RatioBelowOne(dx * dx + 4 * (dy * dy), l.radius * l.radius);
  }

  /** The falloff of light `l` at (px, py), capped at 1. A zero radius makes
      the source divide by zero; the resulting infinity or NaN is capped to
      1 as well, so such a light reaches no pixel. */
  function Lit(px: int, py: int, l: Light): (v: real)
    ensures InUnitRange(v)
    ensures v < 1.0 <==> InEllipse(px, py, l)
  {
    if l.radius == 0 then 1.0
    else
      FalloffInside(px, py, l);
      Min(CircleDist(px, py, l.x, l.y, l.radius), 1.0)
  }

  /** The slice height of column x; a missing entry reads as -1, which is
      what the host runtime's integer conversion returns for a missing key. */
  function SliceHeight(slices: map<int, int>, x: int): (h: int)
    ensures x in slices ==> h == slices[x]
    ensures x !in slices ==> h == -1
  {
    if x in slices then slices[x] else -1
  }

  /** Row y of column x lies below the column's terrain surface. */
  predicate Underground(slices: map<int, int>, x: int, y: int) {
    WorldGenHeight - y < SliceHeight(slices, x)
  }

  /** A column without a slice height counts as underground only below row
      WorldGenHeight + 1, so every row of the visible world above that is
      treated as open sky. */
  lemma MissingSliceDepth(slices: map<int, int>, x: int, y: int)
    requires x !in slices
    ensures Underground(slices, x, y) <==> y > WorldGenHeight + 1
  {
  }

  /** The occlusion mask of cell (x, y): 0 where the cell is solid or
      underground, -1 where it is open. The void code is looked up in the
      catalog like any other. */
  function LightMask(sc: Scene, x: int, y: int): (m: int)
    ensures m == 0 || m == -1
    ensures m == 0 <==> sc.cat(GetBlock(sc.world, x, y)).solid || Underground(sc.slices, x, y)
  {
    if sc.cat(GetBlock(sc.world, x, y)).solid || Underground(sc.slices, x, y) then 0 else -1
  }

  /** Whether light `l` takes part in the lightness of screen pixel (px, py):
      it reaches the pixel, or its z clears the mask of the light's own cell
      (`left` turns the light's screen x into a world column). Since the mask
      is never positive, a light with z >= 0 always takes part. */
  function Flagged(sc: Scene, left: int, px: int, py: int, l: Light): (f: bool)
    ensures f <==> InEllipse(px, py, l) || l.z >= LightMask(sc, left + l.x, l.y)
    ensures l.z >= 0 ==> f
    ensures l.z < -1 ==> (f <==> InEllipse(px, py, l))
  {
    Lit(px, py, l) < 1.0 || l.z >= LightMask(sc, left + l.x, l.y)
  }

  /** The contribution of one light: falloff times luma. */
  function LightLevel(px: int, py: int, l: Light): real {
    Lit(px, py, l) * Luma(l.colour)
  }

  /** The running minimum over the flagged lights of `ls`, starting from `acc`. */
  function Dimmest(sc: Scene, left: int, px: int, py: int, ls: seq<Light>, acc: real): (m: real)
    ensures m <= acc
    ensures forall i :: 0 <= i < |ls| && Flagged(sc, left, px, py, ls[i]) ==> m <= LightLevel(px, py, ls[i])
    ensures m == acc || exists i :: 0 <= i < |ls| && Flagged(sc, left, px, py, ls[i]) && m == LightLevel(px, py, ls[i])
    decreases |ls|
  {
    if |ls| == 0 then acc
    else
      var v := LightLevel(px, py, ls[0]);
      var acc' := if Flagged(sc, left, px, py, ls[0]) && v < acc then v else acc;
      var m := Dimmest(sc, left, px, py, ls[1..], acc');
      assert forall i :: 1 <= i < |ls| ==> ls[i] == ls[1..][i - 1];
      assert m != acc' ==> exists i :: 0 <= i < |ls| && Flagged(sc, left, px, py, ls[i]) && m == LightLevel(px, py, ls[i]) by {
        if m != acc' {
          var j :| 0 <= j < |ls[1..]| && Flagged(sc, left, px, py, ls[1..][j]) && m == LightLevel(px, py, ls[1..][j]);
          assert ls[j + 1] == ls[1..][j];
        }
      }
      m
  }

  /** Lightness of screen pixel (px, py): one minus the smallest
      contribution among the flagged lights, and 0 when no light is flagged.
      The strongest light dominates; contributions are never summed. */
  function BlockLightness(sc: Scene, left: int, px: int, py: int): (b: real)
    ensures b >= 0.0
    ensures forall i :: 0 <= i < |sc.lights| && Flagged(sc, left, px, py, sc.lights[i])
              ==> 1.0 - b <= LightLevel(px, py, sc.lights[i])
    ensures b == 0.0 || (exists i :: 0 <= i < |sc.lights| && Flagged(sc, left, px, py, sc.lights[i])
                           && 1.0 - b == LightLevel(px, py, sc.lights[i]))
    ensures (forall i :: 0 <= i < |sc.lights| ==> !Flagged(sc, left, px, py, sc.lights[i])) ==> b == 0.0
    ensures (forall i :: 0 <= i < |sc.lights| ==> InUnitRange(Luma(sc.lights[i].colour))) ==> b <= 1.0
  {
    DimmestNonNegative(sc, left, px, py, sc.lights);
    1.0 - Dimmest(sc, left, px, py, sc.lights, 1.0)
  }

  lemma LevelNonNegative(px: int, py: int, l: Light)
    requires InUnitRange(Luma(l.colour))
    ensures LightLevel(px, py, l) >= 0.0
  {
    var a := Lit(px, py, l);
    var b := Luma(l.colour);
    assert a >= 0.0 && b >= 0.0;
    assert a * b >= 0.0;
  }

  lemma DimmestNonNegative(sc: Scene, left: int, px: int, py: int, ls: seq<Light>)
    ensures (forall i :: 0 <= i < |ls| ==> InUnitRange(Luma(ls[i].colour)))
            ==> Dimmest(sc, left, px, py, ls, 1.0) >= 0.0
  {
    var m := Dimmest(sc, left, px, py, ls, 1.0);
    if (forall i :: 0 <= i < |ls| ==> InUnitRange(Luma(ls[i].colour))) && m != 1.0 {
      var i :| 0 <= i < |ls| && Flagged(sc, left, px, py, ls[i]) && m == LightLevel(px, py, ls[i]);
      LevelNonNegative(px, py, ls[i]);
    }
  }

  /** Lights combine by a minimum: the lightness over the lights `a + b` is
      the larger of the lightness over `a` and over `b`, whatever the order. */
  lemma {:induction false} LightsCombineByMaximum(sc: Scene, left: int, px: int, py: int, a: seq<Light>, b: seq<Light>)
    ensures BlockLightness(sc.(lights := a + b), left, px, py)
            == if BlockLightness(sc.(lights := a), left, px, py) >= BlockLightness(sc.(lights := b), left, px, py)
               then BlockLightness(sc.(lights := a), left, px, py)
               else BlockLightness(sc.(lights := b), left, px, py)
  {
    var sa, sb, sab := sc.(lights := a), sc.(lights := b), sc.(lights := a + b);
    // Flagging reads the world, not the light list.
    assert forall l :: Flagged(sab, left, px, py, l) == Flagged(sc, left, px, py, l);
    assert forall l :: Flagged(sa, left, px, py, l) == Flagged(sc, left, px, py, l);
    assert forall l :: Flagged(sb, left, px, py, l) == Flagged(sc, left, px, py, l);
    var m := Dimmest(sab, left, px, py, a + b, 1.0);
    var ma := Dimmest(sa, left, px, py, a, 1.0);
    var mb := Dimmest(sb, left, px, py, b, 1.0);
    assert m <= ma by {
      if ma != 1.0 {
        var i :| 0 <= i < |a| && Flagged(sa, left, px, py, a[i]) && ma == LightLevel(px, py, a[i]);
        assert (a + b)[i] == a[i];
      }
    }
    assert m <= mb by {
      if mb != 1.0 {
        var i :| 0 <= i < |b| && Flagged(sb, left, px, py, b[i]) && mb == LightLevel(px, py, b[i]);
        assert (a + b)[|a| + i] == b[i];
      }
    }
    assert m == ma || m == mb by {
      if m != 1.0 {
        var i :| 0 <= i < |a + b| && Flagged(sab, left, px, py, (a + b)[i]) && m == LightLevel(px, py, (a + b)[i]);
        if i < |a| {
          assert (a + b)[i] == a[i];
          assert ma <= m;
        } else {
          assert (a + b)[i] == b[i - |a|];
          assert mb <= m;
        }
      }
    }
  }
}

=== FILE: neopixels.dfy ===
/** The LED sink: a 36 x 32 panel wired as one serpentine strip, with two
    index corrections for positions missing on the physical strip, and
    colours packed as 24-bit G,R,B words. */
module LedSink {
  import opened RenderTypes

  const PanelWidth: int := 36
  const PanelHeight: int := 32
  const StripLength: int := PanelWidth * PanelHeight

  predicate OnPanel(x: int, y: int) {
    0 <= x < PanelWidth && 0 <= y < PanelHeight
  }

  /** The strip position of panel cell (x, y) before correction: rows are
      counted from the bottom, and rows with an even count run right to left. */
  function RawIndex(x: int, y: int): (p: int)
    requires OnPanel(x, y)
    ensures 0 <= p < StripLength
  {
    var row := PanelHeight - y - 1;
    var col := if row % 2 == 0 then PanelWidth - x - 1 else x;
    row * PanelWidth + col
  }

  /** The panel cell wired to raw strip position p. */
  function PanelCell(p: int): (c: (int, int))
    requires 0 <= p < StripLength
    ensures OnPanel(c.0, c.1)
  {
    var row := p / PanelWidth;
    var col := p % PanelWidth;
    (if row % 2 == 0 then PanelWidth - col - 1 else col, PanelHeight - row - 1)
  }

  /** The raw serpentine index is a bijection between the panel and the
      positions [0, StripLength): `PanelCell` undoes it on both sides. */
  lemma RawIndexBijective()
    ensures forall x, y | OnPanel(x, y) :: PanelCell(RawIndex(x, y)) == (x, y)
    ensures forall p | 0 <= p < StripLength :: RawIndex(PanelCell(p).0, PanelCell(p).1) == p
  {
    forall x, y | OnPanel(x, y)
      ensures PanelCell(RawIndex(x, y)) == (x, y)
    {
      var row := PanelHeight - y - 1;
      var col := if row % 2 == 0 then PanelWidth - x - 1 else x;
      assert 0 <= col < PanelWidth;
      assert RawIndex(x, y) / PanelWidth == row && RawIndex(x, y) % PanelWidth == col by {
        DivModUnique(row * PanelWidth + col, row, col);
      }
    }
    forall p | 0 <= p < StripLength
      ensures RawIndex(PanelCell(p).0, PanelCell(p).1) == p
    {
      var row := p / PanelWidth;
      assert 0 <= row < PanelHeight;
    }
  }

  lemma DivModUnique(p: int, row: int, col: int)
    requires 0 <= col < PanelWidth && p == row * PanelWidth + col
    ensures p / PanelWidth == row && p % PanelWidth == col
  {
  }

  /** No two panel cells share a raw strip position. */
  lemma RawIndexInjective(x1: int, y1: int, x2: int, y2: int)
    requires OnPanel(x1, y1) && OnPanel(x2, y2)
    requires RawIndex(x1, y1) == RawIndex(x2, y2)
    ensures x1 == x2 && y1 == y2
  {
    RawIndexBijective();
  }

  /** The two corrections: past raw position 18 * 36 and then past
      22 * 36 - 1, each moves the index down by one. */
  function CorrectedIndex(p: int): (q: int)
    requires 0 <= p < StripLength
    ensures 0 <= q <= StripLength - 3
    ensures p - 2 <= q <= p
  {
    var q1 := if p > 18 * PanelWidth then p - 1 else p;
    if q1 > 22 * PanelWidth - 1 then q1 - 1 else q1
  }

  /** The corrections merge exactly two pairs of raw positions: 648 with 649
      and 792 with 793. Every other pair stays apart. */
  lemma CorrectedCollisions(p: int, p': int)
    requires 0 <= p < p' < StripLength
    ensures CorrectedIndex(p) == CorrectedIndex(p') <==> (p == 648 && p' == 649) || (p == 792 && p' == 793)
  {
  }

  /** The strip position written for panel cell (x, y). */
  function LedIndex(x: int, y: int): (i: int)
    requires OnPanel(x, y)
    ensures 0 <= i < StripLength
  {
    CorrectedIndex(RawIndex(x, y))
  }

  /** A channel in [0, 1] scaled to a byte and truncated; values outside
      [0, 1] are clamped. */
  function Channel(v: real): (b: int)
    ensures 0 <= b <= 255
    ensures InUnitRange(v) ==> b as real <= v * 255.0 < b as real + 1.0
  {
    if v <= 0.0 then 0
    else if v >= 1.0 then 255
    else (v * 255.0).Floor
  }

  /** The 24-bit strip word: green in the high byte, red in the middle, blue
      in the low byte. Each field reads back unchanged. */
  function PackGrb(g: bv8, r: bv8, b: bv8): (w: bv32)
    ensures (w >> 16) & 0xFF == g as bv32
    ensures (w >> 8) & 0xFF == r as bv32
    ensures w & 0xFF == b as bv32
    ensures w >> 24 == 0
  {
    (g as bv32 << 16) | (r as bv32 << 8) | b as bv32
  }

  function PackColour(c: Rgb): bv32 {
    PackGrb(Channel(c.g) as bv8, Channel(c.r) as bv8, Channel(c.b) as bv8)
  }

  /** Writes cell c at panel cell (x, y): the foreground colour if set, else
      the background colour; with neither, the strip is left as it was. */
  function NeopixelsOut(c: Cell, x: int, y: int, strip: seq<bv32>): (s: seq<bv32>)
    requires OnPanel(x, y) && |strip| == StripLength
    ensures |s| == |strip|
    ensures forall i :: 0 <= i < |s| && i != LedIndex(x, y) ==> s[i] == strip[i]
    ensures c.fg.Known? ==> s[LedIndex(x, y)] == PackColour(c.fg.rgb)
    ensures c.fg.Unset? && c.bg.Known? ==> s[LedIndex(x, y)] == PackColour(c.bg.rgb)
    ensures c.fg.Unset? && c.bg.Unset? ==> s == strip
  {
    if c.fg.Known? then strip[LedIndex(x, y) := PackColour(c.fg.rgb)]
    else if c.bg.Known? then strip[LedIndex(x, y) := PackColour(c.bg.rgb)]
    else strip
  }
}

=== FILE: render.dfy ===
/** One render call: the viewport, the cells the loop visits, and the fold
    that computes each visited cell and hands it to the enabled sinks. */
module Render {
  import opened RenderTypes
  import opened Terrain
  import opened Compositor
  import opened TerminalSink
  import opened LedSink

  /** World-space bounds: columns [left, right), rows [top, bottom). */
  datatype Viewport = Viewport(left: int, right: int, top: int, bottom: int)

  predicate InView(vp: Viewport, wx: int, wy: int) {
    vp.left <= wx < vp.right && vp.top <= wy < vp.bottom
  }

  /** With LED output on, the window is the panel's size at the requested
      top-left corner; otherwise it is the requested viewport. */
  function Effective(vp: Viewport, s: Settings): (e: Viewport)
    ensures e.left == vp.left && e.top == vp.top
    ensures s.neopixelsOutput ==> e.right - e.left == PanelWidth && e.bottom - e.top == PanelHeight
    ensures !s.neopixelsOutput ==> e == vp
  {
    if s.neopixelsOutput then vp.(right := vp.left + PanelWidth, bottom := vp.top + PanelHeight)
    else vp
  }

  /** One visited cell: its world position, its local position and its code. */
  datatype Visit = Visit(worldX: int, worldY: int, x: int, y: int, key: char)

  /** The visit the loop makes at world cell (wx, wy) of `world`. */
  function VisitAt(world: World, vp: Viewport, wx: int, wy: int): Visit
    requires wx in world && 0 <= wy < |world[wx]|
  {
    Visit(wx, wy, wx - vp.left, wy - vp.top, world[wx][wy])
  }

  /** The visits of rows i.. of column wx, in row order. */
  function RowVisits(world: World, vp: Viewport, wx: int, i: nat): (vs: seq<Visit>)
    requires wx in world && i <= |world[wx]|
    ensures forall v <- vs :: i <= v.worldY < |world[wx]| && InView(vp, wx, v.worldY)
              && v == VisitAt(world, vp, wx, v.worldY)
    ensures forall wy :: i <= wy < |world[wx]| && InView(vp, wx, wy) ==> VisitAt(world, vp, wx, wy) in vs
    ensures forall j, k :: 0 <= j < k < |vs| ==> vs[j].worldY < vs[k].worldY
    decreases |world[wx]| - i
  {
    if i == |world[wx]| || !(vp.left <= wx < vp.right) then []
    else
      (if vp.top <= i < vp.bottom then [VisitAt(world, vp, wx, i)] else [])
      + RowVisits(world, vp, wx, i + 1)
  }

  /** The visits of the loop over the world's columns in dictionary order
      `order`: columns outside [left, right) are skipped, rows outside
      [top, bottom) are skipped. */
  function Visits(world: World, order: seq<int>, vp: Viewport): (vs: seq<Visit>)
    requires forall i :: 0 <= i < |order| ==> order[i] in world
    ensures forall v <- vs :: v.worldX in world && 0 <= v.worldY < |world[v.worldX]|
              && InView(vp, v.worldX, v.worldY) && v == VisitAt(world, vp, v.worldX, v.worldY)
    ensures forall i, wy :: 0 <= i < |order| && 0 <= wy < |world[order[i]]| && InView(vp, order[i], wy)
              ==> VisitAt(world, vp, order[i], wy) in vs
    ensures forall v <- vs :: v.worldX in order
    decreases |order|
  {
    if |order| == 0 then []
    else
      var rest := Visits(world, order[1..], vp);
      assert forall i :: 1 <= i < |order| ==> order[i] == order[1..][i - 1];
      RowVisits(world, vp, order[0], 0) + rest
  }

  /** Dictionary order lists every column of the world. */
  predicate CoversWorld(world: World, order: seq<int>) {
    && (forall i :: 0 <= i < |order| ==> order[i] in world)
    && (forall k :: k in world ==> k in order)
  }

  predicate Distinct(s: seq<int>) {
    forall i, j :: 0 <= i < j < |s| ==> s[i] != s[j]
  }

  /** The order in which dictionary iteration yields the world's columns:
      every column, each exactly once. */
  predicate DictOrder(world: World, order: seq<int>) {
    CoversWorld(world, order) && Distinct(order)
  }

  /** No world cell is visited twice. */
  predicate VisitedOnce(vs: seq<Visit>) {
    forall j, k :: 0 <= j < k < |vs| ==> vs[j].worldX != vs[k].worldX || vs[j].worldY != vs[k].worldY
  }

  /** Listing each column once visits each cell once: a column's rows come in
      increasing order, and later columns have other world x. */
  lemma {:induction false} VisitsOnce(world: World, order: seq<int>, vp: Viewport)
    requires forall i :: 0 <= i < |order| ==> order[i] in world
    requires Distinct(order)
    ensures VisitedOnce(Visits(world, order, vp))
    decreases |order|
  {
    if |order| > 0 {
      var row := RowVisits(world, vp, order[0], 0);
      var rest := Visits(world, order[1..], vp);
      assert forall i :: 1 <= i < |order| ==> order[i] == order[1..][i - 1];
      VisitsOnce(world, order[1..], vp);
      var vs := row + rest;
      assert vs == Visits(world, order, vp);
      forall j, k | 0 <= j < k < |vs|
        ensures vs[j].worldX != vs[k].worldX || vs[j].worldY != vs[k].worldY
      {
        if k < |row| {
          assert vs[j] == row[j] && vs[k] == row[k];
        } else if j >= |row| {
          assert vs[j] == rest[j - |row|] && vs[k] == rest[k - |row|];
        } else {
          assert row[j] in row;
          assert vs[j].worldX == order[0];
          assert vs[k] == rest[k - |row|] && rest[k - |row|] in rest;
          var i :| 0 <= i < |order[1..]| && order[1..][i] == vs[k].worldX;
          assert order[i + 1] == vs[k].worldX;
        }
      }
    }
  }

  /** The loop visits exactly the stored cells inside the viewport, each
      once, at local position (world x - left, world y - top) with its own
      code, and every such position has a cache slot below width * height. */
  lemma {:induction false} VisitsExactly(world: World, order: seq<int>, vp: Viewport, wx: int, wy: int)
    requires DictOrder(world, order)
    ensures wx in world && 0 <= wy < |world[wx]| && InView(vp, wx, wy)
            <==> exists v <- Visits(world, order, vp) :: v.worldX == wx && v.worldY == wy
    ensures VisitedOnce(Visits(world, order, vp))
    ensures forall v <- Visits(world, order, vp) ::
              v.key == GetBlock(world, v.worldX, v.worldY)
              && 0 <= Slot(vp.right - vp.left, v.x, v.y) < (vp.right - vp.left) * (vp.bottom - vp.top)
  {
    VisitsOnce(world, order, vp);
    var vs := Visits(world, order, vp);
    if wx in world && 0 <= wy < |world[wx]| && InView(vp, wx, wy) {
      var i :| 0 <= i < |order| && order[i] == wx;
      assert VisitAt(world, vp, order[i], wy) in vs;
    }
    forall v <- vs
      ensures 0 <= Slot(vp.right - vp.left, v.x, v.y) < (vp.right - vp.left) * (vp.bottom - vp.top)
    {
      SlotInRange(vp.right - vp.left, vp.bottom - vp.top, v.x, v.y);
    }
  }

  datatype Status = Ok | AllocFailed | EmptyCell | BufferFull

  /** The sinks' state after a render call and how the call ended. */
  datatype Rendered = Rendered(term: TermState, leds: seq<bv32>, status: Status)

  /** The cell the compositor computes for a visit. */
  function CellOf(sc: Scene, left: int, v: Visit): Cell {
    CalcPixel(sc, left, v.x, v.worldX, v.worldY, v.key)
  }

  predicate InFrame(st: TermState, vs: seq<Visit>) {
    forall v <- vs :: 0 <= v.x < st.width && 0 <= v.y < st.height
  }

  /** The state the LED sink needs: a full strip and the panel-sized frame. */
  predicate LedReady(sc: Scene, st: TermState, leds: seq<bv32>) {
    sc.settings.neopixelsOutput ==> |leds| == StripLength && st.width == PanelWidth && st.height == PanelHeight
  }

  /** The pixel loop: a void code stops the call; otherwise the cell is
      computed, written to the terminal (stopping when the buffer is full)
      and then to the LED strip. */
  function RenderCells(sc: Scene, left: int, vs: seq<Visit>, st: TermState, leds: seq<bv32>): (r: Rendered)
    requires Valid(st) && InFrame(st, vs) && LedReady(sc, st, leds)
    ensures Valid(r.term) && LedReady(sc, r.term, r.leds)
    ensures r.term.width == st.width && r.term.height == st.height && r.term.resize == st.resize
    ensures r.term.size == st.size
    ensures r.status == Ok || r.status == EmptyCell || r.status == BufferFull
    ensures r.status == Ok ==> forall v <- vs :: v.key != Void
    ensures r.status == EmptyCell ==> exists v <- vs :: v.key == Void
    ensures r.status == BufferFull ==> sc.settings.terminalOutput
    ensures !sc.settings.terminalOutput ==> r.term == st
    ensures !sc.settings.neopixelsOutput ==> r.leds == leds
    decreases |vs|
  {
    if |vs| == 0 then Rendered(st, leds, Ok)
    else
      var v := vs[0];
      if v.key == Void then Rendered(st, leds, EmptyCell)
      else
        var cell := CellOf(sc, left, v);
        var out := if sc.settings.terminalOutput
                   then TerminalOut(st, cell, v.x, v.y, sc.settings.colourMode, sc.codec)
                   else Out(st, true);
        if !out.ok then Rendered(out.st, leds, BufferFull)
        else
          var leds' := if sc.settings.neopixelsOutput then NeopixelsOut(cell, v.x, v.y, leds) else leds;
          var r := RenderCells(sc, left, vs[1..], out.st, leds');
          assert r.status == EmptyCell ==> exists u <- vs :: u.key == Void by {
            if r.status == EmptyCell {
              var u :| u in vs[1..] && u.key == Void;
              assert u in vs;
            }
          }
          r
  }

  /** The frame setup of a render call: `setup_frame` with the effective
      window's dimensions. */
  function FrameSetup(sc: Scene, vp: Viewport, st: TermState, heap: nat -> Cell): Option<TermState>
    requires Valid(st)
  {
    var e := Effective(vp, sc.settings);
    SetupFrame(st, e.right - e.left, e.bottom - e.top, sc.codec.maxColourCodeLen, heap)
  }

  /** One render call from sink state (st, leds). `heap` stands for the
      contents of a freshly allocated frame cache. */
  function Render(sc: Scene, order: seq<int>, vp: Viewport, st: TermState, leds: seq<bv32>, heap: nat -> Cell): (r: Rendered)
    requires Valid(st)
    requires DictOrder(sc.world, order)
    requires sc.settings.neopixelsOutput ==> |leds| == StripLength
    ensures var e := Effective(vp, sc.settings);
            var w, h := e.right - e.left, e.bottom - e.top;
            && (r.status == AllocFailed <==> (w != st.width || h != st.height) && OppositeSigns(w, h))
            && (r.status != AllocFailed ==> r.term.width == w && r.term.height == h)
            && (r.status == Ok ==> forall v <- Visits(sc.world, order, e) :: v.key != Void)
    ensures Valid(r.term)
  {
    var e := Effective(vp, sc.settings);
    match FrameSetup(sc, vp, st, heap)
    case None => Rendered(st, leds, AllocFailed)
    case Some(st0) => RenderCells(sc, e.left, Visits(sc.world, order, e), st0, leds)
  }

  /** The frame cache agrees, under the codec's equality, with the cell of
      visit u. */
  predicate Cached(sc: Scene, left: int, st: TermState, u: Visit) {
    var slot := Slot(st.width, u.x, u.y);
    0 <= slot < |st.lastFrame| && CellEq(sc.codec.colourEq, st.lastFrame[slot], CellOf(sc, left, u))
  }

  /** Visits at the same local position are the same visit. */
  predicate Coherent(vs: seq<Visit>) {
    forall v, u | v in vs && u in vs :: v.x == u.x && v.y == u.y ==> v == u
  }

  lemma VisitsCoherent(world: World, order: seq<int>, vp: Viewport)
    requires forall i :: 0 <= i < |order| ==> order[i] in world
    ensures Coherent(Visits(world, order, vp))
  {
    var vs := Visits(world, order, vp);
    forall v, u | v in vs && u in vs && v.x == u.x && v.y == u.y
      ensures v == u
    {
      assert v.worldX == u.worldX && v.worldY == u.worldY;
    }
  }

  /** Once the cache agrees with visit u, the rest of the loop keeps it so:
      a later write to u's slot comes from a visit at u's position, which is
      u itself. */
  lemma {:induction false} CacheKept(sc: Scene, left: int, vs: seq<Visit>, st: TermState, leds: seq<bv32>, u: Visit)
    requires Valid(st) && InFrame(st, vs) && LedReady(sc, st, leds)
    requires Reflexive(sc.codec.colourEq)
    requires 0 <= u.x < st.width && 0 <= u.y < st.height
    requires forall v <- vs :: v.x == u.x && v.y == u.y ==> v == u
    requires Cached(sc, left, st, u)
    ensures Cached(sc, left, RenderCells(sc, left, vs, st, leds).term, u)
    decreases |vs|
  {
    if |vs| > 0 && vs[0].key != Void {
      var v := vs[0];
      var cell := CellOf(sc, left, v);
      var out := if sc.settings.terminalOutput
                 then TerminalOut(st, cell, v.x, v.y, sc.settings.colourMode, sc.codec)
                 else Out(st, true);
      assert Cached(sc, left, out.st, u) by {
        if sc.settings.terminalOutput && Slot(st.width, v.x, v.y) == Slot(st.width, u.x, u.y) {
          SlotInjective(st.width, v.x, v.y, u.x, u.y);
        }
      }
      if out.ok {
        var leds' := if sc.settings.neopixelsOutput then NeopixelsOut(cell, v.x, v.y, leds) else leds;
        CacheKept(sc, left, vs[1..], out.st, leds', u);
      }
    }
  }

  /** A loop that completes leaves the cache agreeing with every visited cell. */
  lemma {:induction false} CacheFilled(sc: Scene, left: int, vs: seq<Visit>, st: TermState, leds: seq<bv32>)
    requires Valid(st) && InFrame(st, vs) && LedReady(sc, st, leds)
    requires Reflexive(sc.codec.colourEq) && sc.settings.terminalOutput && Coherent(vs)
    requires RenderCells(sc, left, vs, st, leds).status == Ok
    ensures forall u <- vs :: Cached(sc, left, RenderCells(sc, left, vs, st, leds).term, u)
    decreases |vs|
  {
    if |vs| > 0 {
      var v := vs[0];
      var cell := CellOf(sc, left, v);
      var out := TerminalOut(st, cell, v.x, v.y, sc.settings.colourMode, sc.codec);
      var leds' := if sc.settings.neopixelsOutput then NeopixelsOut(cell, v.x, v.y, leds) else leds;
      assert Cached(sc, left, out.st, v);
      CacheKept(sc, left, vs[1..], out.st, leds', v);
      CacheFilled(sc, left, vs[1..], out.st, leds');
      forall u <- vs
        ensures Cached(sc, left, RenderCells(sc, left, vs, st, leds).term, u)
      {
        if u != v {
          assert u in vs[1..];
        }
      }
    }
  }

  /** When the cache already agrees with every visited cell and the frame was
      not resized, the loop completes and writes nothing to the terminal;
      the LED strip is still rewritten at every visit. */
  lemma {:induction false} NothingChanged(sc: Scene, left: int, vs: seq<Visit>, st: TermState, leds: seq<bv32>)
    requires Valid(st) && InFrame(st, vs) && LedReady(sc, st, leds)
    requires !st.resize
    requires forall v <- vs :: v.key != Void && (sc.settings.terminalOutput ==> Cached(sc, left, st, v))
    ensures RenderCells(sc, left, vs, st, leds).status == Ok
    ensures RenderCells(sc, left, vs, st, leds).term == st
    decreases |vs|
  {
    if |vs| > 0 {
      var v := vs[0];
      var cell := CellOf(sc, left, v);
      var leds' := if sc.settings.neopixelsOutput then NeopixelsOut(cell, v.x, v.y, leds) else leds;
      assert forall u <- vs[1..] :: u in vs;
      NothingChanged(sc, left, vs[1..], st, leds');
    }
  }

  /** Rendering the same scene twice with the same viewport: the second call
      completes and writes nothing to the terminal, and the cache is as the
      first call left it. */
  lemma RepeatRenderIsSilent(sc: Scene, order: seq<int>, vp: Viewport, st: TermState, leds: seq<bv32>,
                             heap: nat -> Cell, heap': nat -> Cell)
    requires Valid(st)
    requires DictOrder(sc.world, order)
    requires sc.settings.neopixelsOutput ==> |leds| == StripLength
    requires Reflexive(sc.codec.colourEq)
    requires Render(sc, order, vp, st, leds, heap).status == Ok
    ensures var r1 := Render(sc, order, vp, st, leds, heap);
            var r2 := Render(sc, order, vp, r1.term, r1.leds, heap');
            r2.status == Ok && r2.term.buffer == [] && r2.term.lastFrame == r1.term.lastFrame
  {
    var e := Effective(vp, sc.settings);
    var w, h := e.right - e.left, e.bottom - e.top;
    var st0 := SetupFrame(st, w, h, sc.codec.maxColourCodeLen, heap).value;
    var vs := Visits(sc.world, order, e);
    var r1 := RenderCells(sc, e.left, vs, st0, leds);
    assert r1 == Render(sc, order, vp, st, leds, heap);
    var st1 := SetupFrame(r1.term, w, h, sc.codec.maxColourCodeLen, heap').value;
    assert st1 == r1.term.(resize := false, buffer := []);
    if sc.settings.terminalOutput {
      VisitsCoherent(sc.world, order, e);
      CacheFilled(sc, e.left, vs, st0, leds);
      forall v <- vs
        ensures Cached(sc, e.left, st1, v)
      {
        assert Cached(sc, e.left, r1.term, v);
      }
    }
    assert InFrame(st1, vs);
    assert LedReady(sc, st1, r1.leds);
    NothingChanged(sc, e.left, vs, st1, r1.leds);
    assert Render(sc, order, vp, r1.term, r1.leds, heap') == RenderCells(sc, e.left, vs, st1, r1.leds);
  }

  lemma ConcatAssoc<T>(a: seq<T>, b: seq<T>, c: seq<T>)
    ensures (a + b) + c == a + (b + c)
  {
  }

  /** The text a full redraw writes: every visit's cursor control and cell
      text, in visit order. */
  function Emissions(sc: Scene, left: int, vs: seq<Visit>): string
    decreases |vs|
  {
    if |vs| == 0 then []
    else PosStr(vs[0].x, vs[0].y) + sc.codec.colourStr(CellOf(sc, left, vs[0]), sc.settings.colourMode)
         + Emissions(sc, left, vs[1..])
  }

  /** The next state of the loop after its first visit, when that visit
      neither stops the loop nor fails. */
  function StepState(sc: Scene, left: int, vs: seq<Visit>, st: TermState): TermState
    requires Valid(st) && InFrame(st, vs) && |vs| > 0
  {
    var v := vs[0];
    if sc.settings.terminalOutput
    then TerminalOut(st, CellOf(sc, left, v), v.x, v.y, sc.settings.colourMode, sc.codec).st
    else st
  }

  function StepLeds(sc: Scene, left: int, vs: seq<Visit>, st: TermState, leds: seq<bv32>): seq<bv32>
    requires InFrame(st, vs) && LedReady(sc, st, leds) && |vs| > 0
  {
    var v := vs[0];
    if sc.settings.neopixelsOutput then NeopixelsOut(CellOf(sc, left, v), v.x, v.y, leds) else leds
  }

  lemma ResizedStep(sc: Scene, left: int, vs: seq<Visit>, st: TermState, leds: seq<bv32>)
    requires Valid(st) && InFrame(st, vs) && LedReady(sc, st, leds) && |vs| > 0
    requires st.resize && sc.settings.terminalOutput
    requires RenderCells(sc, left, vs, st, leds).status == Ok
    ensures var st' := StepState(sc, left, vs, st);
            && Valid(st') && InFrame(st', vs[1..]) && LedReady(sc, st', StepLeds(sc, left, vs, st, leds))
            && st'.resize
            && st'.buffer == st.buffer + (PosStr(vs[0].x, vs[0].y)
                                          + sc.codec.colourStr(CellOf(sc, left, vs[0]), sc.settings.colourMode))
            && RenderCells(sc, left, vs, st, leds)
               == RenderCells(sc, left, vs[1..], st', StepLeds(sc, left, vs, st, leds))
  {
    var v := vs[0];
    var cell := CellOf(sc, left, v);
    var text := PosStr(v.x, v.y) + sc.codec.colourStr(cell, sc.settings.colourMode);
    var out := TerminalOut(st, cell, v.x, v.y, sc.settings.colourMode, sc.codec);
    assert out.st.buffer == (st.buffer + PosStr(v.x, v.y)) + sc.codec.colourStr(cell, sc.settings.colourMode);
    ConcatAssoc(st.buffer, PosStr(v.x, v.y), sc.codec.colourStr(cell, sc.settings.colourMode));
    assert forall u <- vs[1..] :: u in vs;
  }

  lemma {:induction false} ResizedLoopWritesAll(sc: Scene, left: int, vs: seq<Visit>, st: TermState, leds: seq<bv32>)
    requires Valid(st) && InFrame(st, vs) && LedReady(sc, st, leds)
    requires st.resize && sc.settings.terminalOutput
    requires RenderCells(sc, left, vs, st, leds).status == Ok
    ensures RenderCells(sc, left, vs, st, leds).term.buffer == st.buffer + Emissions(sc, left, vs)
    decreases |vs|
  {
    if |vs| > 0 {
      ResizedStep(sc, left, vs, st, leds);
      var st' := StepState(sc, left, vs, st);
      var text := PosStr(vs[0].x, vs[0].y) + sc.codec.colourStr(CellOf(sc, left, vs[0]), sc.settings.colourMode);
      ResizedLoopWritesAll(sc, left, vs[1..], st', StepLeds(sc, left, vs, st, leds));
      ConcatAssoc(st.buffer, text, Emissions(sc, left, vs[1..]));
    } else {
      assert st.buffer + Emissions(sc, left, vs) == st.buffer;
    }
  }

  /** A change of either dimension redraws every visited cell, in visit
      order, whatever the cache held. */
  lemma ResizeRedrawsEveryCell(sc: Scene, order: seq<int>, vp: Viewport, st: TermState, leds: seq<bv32>, heap: nat -> Cell)
    requires Valid(st)
    requires DictOrder(sc.world, order)
    requires sc.settings.neopixelsOutput ==> |leds| == StripLength
    requires sc.settings.terminalOutput
    requires var e := Effective(vp, sc.settings);
             e.right - e.left != st.width || e.bottom - e.top != st.height
    requires Render(sc, order, vp, st, leds, heap).status == Ok
    ensures var e := Effective(vp, sc.settings);
            Render(sc, order, vp, st, leds, heap).term.buffer == Emissions(sc, e.left, Visits(sc.world, order, e))
  {
    var e := Effective(vp, sc.settings);
    var setup := FrameSetup(sc, vp, st, heap);
    if setup.None? {
      SetupFails(sc, order, vp, st, leds, heap);
    } else {
      var st0 := setup.value;
      var vs := Visits(sc.world, order, e);
      SetupFrameHolds(sc, order, vp, st, leds, heap, st0);
      SetupRunsLoop(sc, order, vp, st, leds, heap, st0);
      assert st0.resize && st0.buffer == [];
      ResizedLoopWritesAll(sc, e.left, vs, st0, leds);
      assert st0.buffer + Emissions(sc, e.left, vs) == Emissions(sc, e.left, vs);
    }
  }

  /** A sequence of distinct values from [0, n) has at most n entries. */
  lemma {:induction false} DistinctBounded(s: seq<int>, n: nat)
    requires Distinct(s)
    requires forall i :: 0 <= i < |s| ==> 0 <= s[i] < n
    ensures |s| <= n
    decreases n
  {
    if |s| > 0 {
      assert 0 <= s[0] < n;
      if i :| 0 <= i < |s| && s[i] == n - 1 {
        var t := s[..i] + s[i + 1..];
        assert forall a :: 0 <= a < |t| ==> t[a] == s[if a < i then a else a + 1];
        DistinctBounded(t, n - 1);
      } else {
        DistinctBounded(s, n - 1);
      }
    }
  }

  /** Distinct in-frame cells have distinct cache slots. */
  lemma SlotsDiffer(width: int, height: int, x1: int, y1: int, x2: int, y2: int)
    requires 0 <= x1 < width && 0 <= x2 < width
    requires x1 != x2 || y1 != y2
    ensures Slot(width, x1, y1) != Slot(width, x2, y2)
  {
    if Slot(width, x1, y1) == Slot(width, x2, y2) {
      SlotInjective(width, x1, y1, x2, y2);
      assert false;
    }
  }

  /** One terminal write after which at least `k` characters of room
      remain for every later visit still fits. */
  lemma BudgetStep(b: int, b': int, n: int, k: int, size: int)
    requires n >= 1 && k >= 0 && b' <= b + k && b + n * k < size
    ensures b' < size
    ensures n - 1 == 0 || b' + (n - 1) * k < size
  {
    assert (n - 1) * k + k == n * k;
    assert n * k >= k by {
      assert (n - 1) * k >= 0;
    }
  }

  /** A cell write never appends more than a short cursor control plus the
      codec's longest colour text, and so succeeds when that much room is
      left. */
  lemma WriteFits(st: TermState, c: Cell, x: int, y: int, mode: int, codec: Codec)
    requires Valid(st) && 0 <= x < st.width && 0 <= y < st.height
    requires TextFits(codec) && st.width <= 999 && st.height <= 999
    ensures var out := TerminalOut(st, c, x, y, mode, codec);
            |out.st.buffer| <= |st.buffer| + (PosFormatSize - 1 + codec.maxColourCodeLen)
            && (out.ok || |out.st.buffer| >= st.size)
  {
    PosStrShort(x, y);
    assert |codec.colourStr(c, mode)| <= codec.maxColourCodeLen;
  }

  /** The loop never fills the buffer when the buffer has room for each
      remaining visit's longest text: a cursor control of at most 10
      characters (coordinates below 999) and a colour text no longer than
      the codec's bound. */
  lemma {:induction false} LoopFits(sc: Scene, left: int, vs: seq<Visit>, st: TermState, leds: seq<bv32>)
    requires Valid(st) && InFrame(st, vs) && LedReady(sc, st, leds)
    requires TextFits(sc.codec) && st.width <= 999 && st.height <= 999
    requires |vs| == 0 || |st.buffer| + |vs| * (PosFormatSize - 1 + sc.codec.maxColourCodeLen) < st.size
    ensures RenderCells(sc, left, vs, st, leds).status != BufferFull
    decreases |vs|
  {
    if |vs| > 0 && vs[0].key != Void {
      var v := vs[0];
      var k := PosFormatSize - 1 + sc.codec.maxColourCodeLen;
      var st' := StepState(sc, left, vs, st);
      if sc.settings.terminalOutput {
        WriteFits(st, CellOf(sc, left, v), v.x, v.y, sc.settings.colourMode, sc.codec);
      }
      BudgetStep(|st.buffer|, |st'.buffer|, |vs|, k, st.size);
      StepUnfold(sc, left, vs, st, leds);
      LoopFits(sc, left, vs[1..], st', StepLeds(sc, left, vs, st, leds));
    }
  }

  /** A visit whose code is not void and whose terminal write succeeds
      hands the rest of the loop the state after that write. */
  lemma StepUnfold(sc: Scene, left: int, vs: seq<Visit>, st: TermState, leds: seq<bv32>)
    requires Valid(st) && InFrame(st, vs) && LedReady(sc, st, leds) && |vs| > 0
    requires vs[0].key != Void
    requires sc.settings.terminalOutput ==>
               TerminalOut(st, CellOf(sc, left, vs[0]), vs[0].x, vs[0].y, sc.settings.colourMode, sc.codec).ok
    ensures var st' := StepState(sc, left, vs, st);
            && Valid(st') && InFrame(st', vs[1..]) && LedReady(sc, st', StepLeds(sc, left, vs, st, leds))
            && st'.size == st.size
            && RenderCells(sc, left, vs, st, leds)
               == RenderCells(sc, left, vs[1..], st', StepLeds(sc, left, vs, st, leds))
  {
    assert forall u <- vs[1..] :: u in vs;
  }

  /** A loop that visits each cell once visits at most width * height
      cells: their cache slots are distinct and below width * height. */
  lemma VisitCount(world: World, order: seq<int>, e: Viewport)
    requires DictOrder(world, order)
    requires (e.right - e.left) * (e.bottom - e.top) >= 0
    ensures |Visits(world, order, e)| <= (e.right - e.left) * (e.bottom - e.top)
  {
    var w, h := e.right - e.left, e.bottom - e.top;
    var vs := Visits(world, order, e);
    VisitsOnce(world, order, e);
    var slots := seq(|vs|, i requires 0 <= i < |vs| => Slot(w, vs[i].x, vs[i].y));
    forall i | 0 <= i < |vs|
      ensures 0 <= slots[i] < w * h
    {
      assert vs[i] in vs;
      SlotInRange(w, h, vs[i].x, vs[i].y);
    }
    forall i, j | 0 <= i < j < |vs|
      ensures slots[i] != slots[j]
    {
      assert vs[i] in vs && vs[j] in vs;
      SlotsDiffer(w, h, vs[i].x, vs[i].y, vs[j].x, vs[j].y);
    }
    DistinctBounded(slots, w * h);
  }

  lemma BudgetCovers(n: int, area: int, k: int)
    requires 1 <= n <= area && k >= 0
    ensures n * k < area * (k + 1)
  {
    assert (area - n) * k >= 0;
    assert area * (k + 1) == area * k + area;
  }

  /** A fresh frame whose capacity is `Sized` has room for every cell of a
      loop that visits at most width * height cells. */
  lemma FrameFits(sc: Scene, left: int, vs: seq<Visit>, st: TermState, leds: seq<bv32>)
    requires Valid(st) && InFrame(st, vs) && LedReady(sc, st, leds)
    requires TextFits(sc.codec) && st.width <= 999 && st.height <= 999
    requires Sized(st, sc.codec.maxColourCodeLen) && st.buffer == []
    requires |vs| <= st.width * st.height
    ensures RenderCells(sc, left, vs, st, leds).status != BufferFull
  {
    if |vs| > 0 {
      BudgetCovers(|vs|, st.width * st.height, PosFormatSize - 1 + sc.codec.maxColourCodeLen);
    }
    LoopFits(sc, left, vs, st, leds);
  }

  /** One render call is the frame setup followed by the pixel loop over
      the visits of the effective window. */
  lemma RenderUnfold(sc: Scene, order: seq<int>, vp: Viewport, st: TermState, leds: seq<bv32>, heap: nat -> Cell)
    requires Valid(st)
    requires DictOrder(sc.world, order)
    requires sc.settings.neopixelsOutput ==> |leds| == StripLength
    ensures var e := Effective(vp, sc.settings);
            var setup := FrameSetup(sc, vp, st, heap);
            && (setup.None? ==> Render(sc, order, vp, st, leds, heap) == Rendered(st, leds, AllocFailed))
            && (setup.Some? ==> InFrame(setup.value, Visits(sc.world, order, e))
                                && LedReady(sc, setup.value, leds)
                                && Render(sc, order, vp, st, leds, heap)
                                   == RenderCells(sc, e.left, Visits(sc.world, order, e), setup.value, leds))
  {
    var e := Effective(vp, sc.settings);
    var setup := FrameSetup(sc, vp, st, heap);
    if setup.Some? {
      SetupFrameHolds(sc, order, vp, st, leds, heap, setup.value);
      SetupRunsLoop(sc, order, vp, st, leds, heap, setup.value);
    } else {
      SetupFails(sc, order, vp, st, leds, heap);
    }
  }

  /** A failed frame setup ends the call with the sinks untouched. */
  lemma SetupFails(sc: Scene, order: seq<int>, vp: Viewport, st: TermState, leds: seq<bv32>, heap: nat -> Cell)
    requires Valid(st)
    requires DictOrder(sc.world, order)
    requires sc.settings.neopixelsOutput ==> |leds| == StripLength
    requires FrameSetup(sc, vp, st, heap).None?
    ensures Render(sc, order, vp, st, leds, heap) == Rendered(st, leds, AllocFailed)
  {
  }

  /** A successful frame setup yields a frame that holds every visit of
      the window and suits the LED sink. */
  lemma SetupFrameHolds(sc: Scene, order: seq<int>, vp: Viewport, st: TermState, leds: seq<bv32>, heap: nat -> Cell, st0: TermState)
    requires Valid(st)
    requires DictOrder(sc.world, order)
    requires sc.settings.neopixelsOutput ==> |leds| == StripLength
    requires FrameSetup(sc, vp, st, heap) == Some(st0)
    ensures InFrame(st0, Visits(sc.world, order, Effective(vp, sc.settings))) && LedReady(sc, st0, leds)
  {
    VisitsInFrame(sc.world, order, Effective(vp, sc.settings), st0);
  }

  /** A successful frame setup hands the new frame to the pixel loop. */
  lemma SetupRunsLoop(sc: Scene, order: seq<int>, vp: Viewport, st: TermState, leds: seq<bv32>, heap: nat -> Cell, st0: TermState)
    requires Valid(st)
    requires DictOrder(sc.world, order)
    requires sc.settings.neopixelsOutput ==> |leds| == StripLength
    requires FrameSetup(sc, vp, st, heap) == Some(st0)
    requires InFrame(st0, Visits(sc.world, order, Effective(vp, sc.settings))) && LedReady(sc, st0, leds)
    ensures Render(sc, order, vp, st, leds, heap) == RenderCells(sc, Effective(vp, sc.settings).left, Visits(sc.world, order, Effective(vp, sc.settings)), st0, leds)
  {
  }

  /** Every visit of a window lies inside a frame of the window's size. */
  lemma VisitsInFrame(world: World, order: seq<int>, e: Viewport, st: TermState)
    requires forall i :: 0 <= i < |order| ==> order[i] in world
    requires st.width == e.right - e.left && st.height == e.bottom - e.top
    ensures InFrame(st, Visits(world, order, e))
  {
  }

  /** Both dimensions of the window are at most 999 cells, so every 1-based
      coordinate prints with at most three digits. */
  predicate Within999(e: Viewport) {
    e.right - e.left <= 999 && e.bottom - e.top <= 999
  }

  /** The buffer a resize allocates is never exhausted, provided the codec
      keeps its length bound, each column is listed once and the window is
      at most 999 x 999 cells: every cell needs at most 10 characters of
      cursor control and the capacity allows 11. The capacity invariant
      `Sized` holds of the initial state and every render call keeps it. */
  lemma RenderNeverOverflows(sc: Scene, order: seq<int>, vp: Viewport, st: TermState, leds: seq<bv32>, heap: nat -> Cell)
    requires Valid(st) && Sized(st, sc.codec.maxColourCodeLen)
    requires DictOrder(sc.world, order)
    requires sc.settings.neopixelsOutput ==> |leds| == StripLength
    requires TextFits(sc.codec)
    requires Within999(Effective(vp, sc.settings))
    ensures Render(sc, order, vp, st, leds, heap).status != BufferFull
    ensures Sized(Render(sc, order, vp, st, leds, heap).term, sc.codec.maxColourCodeLen)
  {
    var setup := FrameSetup(sc, vp, st, heap);
    if setup.Some? {
      LoopNeverOverflows(sc, order, vp, st, leds, heap, setup.value);
      SetupRunsLoop(sc, order, vp, st, leds, heap, setup.value);
    } else {
      SetupFails(sc, order, vp, st, leds, heap);
    }
  }

  /** The pixel loop over a freshly set-up frame never fills the buffer. */
  lemma LoopNeverOverflows(sc: Scene, order: seq<int>, vp: Viewport, st: TermState, leds: seq<bv32>, heap: nat -> Cell, st0: TermState)
    requires Valid(st) && Sized(st, sc.codec.maxColourCodeLen)
    requires DictOrder(sc.world, order)
    requires sc.settings.neopixelsOutput ==> |leds| == StripLength
    requires TextFits(sc.codec)
    requires Within999(Effective(vp, sc.settings))
    requires FrameSetup(sc, vp, st, heap) == Some(st0)
    ensures InFrame(st0, Visits(sc.world, order, Effective(vp, sc.settings))) && LedReady(sc, st0, leds)
    ensures RenderCells(sc, Effective(vp, sc.settings).left, Visits(sc.world, order, Effective(vp, sc.settings)), st0, leds).status != BufferFull
  {
    SetupFrameHolds(sc, order, vp, st, leds, heap, st0);
    WindowLoopFits(sc, order, Effective(vp, sc.settings), st0, leds);
  }

  /** The loop over a window's visits never fills the buffer of an empty
      frame of the window's size whose capacity is `Sized`. */
  lemma WindowLoopFits(sc: Scene, order: seq<int>, e: Viewport, st0: TermState, leds: seq<bv32>)
    requires DictOrder(sc.world, order) && TextFits(sc.codec) && Within999(e)
    requires Valid(st0) && InFrame(st0, Visits(sc.world, order, e)) && LedReady(sc, st0, leds)
    requires st0.width == e.right - e.left && st0.height == e.bottom - e.top
    requires st0.buffer == [] && Sized(st0, sc.codec.maxColourCodeLen)
    ensures RenderCells(sc, e.left, Visits(sc.world, order, e), st0, leds).status != BufferFull
  {
    VisitCount(sc.world, order, e);
    FrameFits(sc, e.left, Visits(sc.world, order, e), st0, leds);
  }
}

=== FILE: terminal.dfy ===
/** The terminal sink: the cursor-position control, the frame setup and the
    change-diffed cell output. */
module TerminalSink {
  import opened RenderTypes
  import opened Decimal

  const Esc: char := 27 as char

  /** Bytes of the "\033[%ld;%ldH" format, its terminating NUL included. */
  const PosFormatSize: nat := 11

  /** The Cursor Position control (CUP, section 8.3.21 of ECMA-48): CSI,
      the line, ';', the column, then 'H'. */
  function Cup(line: int, column: int): (s: string)
    ensures |s| >= 6 && s[0] == Esc && s[1] == '[' && s[|s| - 1] == 'H'
  {
    [Esc, '['] + ShowInt(line) + [';'] + ShowInt(column) + ['H']
  }

  lemma CupRoundTrip(line: int, column: int)
    ensures ParseCup(Cup(line, column)) == Some((line, column))
  {
    var a, b := ShowInt(line), ShowInt(column);
    var s := Cup(line, column);
    var body := s[2..|s| - 1];
    assert body == a + [';'] + b;
    FirstIndexAfter(a, b);
    assert body[..|a|] == a;
    assert body[|a| + 1..] == b;
    ParseShowInt(line);
    ParseShowInt(column);
  }

  /** The cursor control for local cell (x, y): CUP to line y + 1 and column
      x + 1, both counted from 1. */
  function PosStr(x: int, y: int): (s: string)
    ensures |s| >= 6 && s[0] == Esc && s[1] == '[' && s[|s| - 1] == 'H'
    ensures ParseCup(s) == Some((y + 1, x + 1))
  {
    CupRoundTrip(y + 1, x + 1);
    Cup(y + 1, x + 1)
  }

  /** Coordinates below 999 print with at most three digits each, so the
      cursor control fits in the format's size without its NUL. */
  lemma {:induction false} PosStrShort(x: int, y: int)
    requires 0 <= x < 999 && 0 <= y < 999
    ensures |PosStr(x, y)| <= PosFormatSize - 1
  {
    assert Pow10(3) == 1000;
    ShowNatLength(y + 1, 3);
    ShowNatLength(x + 1, 3);
  }

  /** From coordinate 999 on, a 1-based position has four digits, and the
      cursor control outgrows the format's size, NUL included. */
  lemma PosStrOutgrowsFormat()
    ensures |PosStr(999, 999)| == 12 > PosFormatSize
  {
    assert ShowNat(1000) == "1000";
  }

  /** The index of the first ';' in s. */
  function FirstSemicolon(s: string): (r: Option<nat>)
    ensures r.Some? ==> r.value < |s| && s[r.value] == ';' && forall j :: 0 <= j < r.value ==> s[j] != ';'
    ensures r.None? ==> forall j :: 0 <= j < |s| ==> s[j] != ';'
    decreases |s|
  {
    if |s| == 0 then None
    else if s[0] == ';' then Some(0)
    else
      match FirstSemicolon(s[1..])
      case None => None
      case Some(i) => Some(i + 1)
  }

  lemma FirstIndexAfter(a: string, b: string)
    requires forall k :: 0 <= k < |a| ==> a[k] != ';'
    ensures FirstSemicolon(a + [';'] + b) == Some(|a|)
  {
    var s := a + [';'] + b;
    assert s[|a|] == ';';
    assert forall k :: 0 <= k < |a| ==> s[k] == a[k];
  }

  /** Reads a CUP control back as (line, column). */
  function ParseCup(s: string): Option<(int, int)> {
    if |s| < 3 || s[0] != Esc || s[1] != '[' || s[|s| - 1] != 'H' then None
    else
      var body := s[2..|s| - 1];
      match FirstSemicolon(body)
      case None => None
      case Some(k) =>
        match (ParseInt(body[..k]), ParseInt(body[k + 1..]))
        case (Some(line), Some(column)) => Some((line, column))
        case _ => None
  }

  /** The terminal sink's process-wide state: the frame dimensions, whether
      the last setup changed them, the cache of the last cell written to each
      slot, the output buffer (its length is the write position) and the
      buffer's capacity. */
  datatype TermState = TermState(
    width: int,
    height: int,
    resize: bool,
    lastFrame: seq<Cell>,
    buffer: string,
    size: int)

  /** The state before the first frame: everything zero. */
  const Initial: TermState := TermState(0, 0, false, [], [], 0)

  /** The codec's promise about `maxColourCodeLen`: no cell text is longer. */
  ghost predicate TextFits(codec: Codec) {
    forall c, mode :: |codec.colourStr(c, mode)| <= codec.maxColourCodeLen
  }

  /** The buffer capacity is what a resize to the current dimensions
      allocates for colour texts of at most `maxColourLen` characters. */
  predicate Sized(st: TermState, maxColourLen: nat) {
    st.size == st.width * st.height * (PosFormatSize + maxColourLen)
  }

  /** Exactly one of w and h is negative, so the area w * h is negative. */
  predicate OppositeSigns(w: int, h: int) {
    (w < 0 && h > 0) || (w > 0 && h < 0)
  }

  /** Before the first frame the capacity is trivially as sized. */
  lemma InitialSized(maxColourLen: nat)
    ensures Valid(Initial) && Sized(Initial, maxColourLen)
  {
  }

  /** The cache has one slot per cell of the frame. */
  ghost predicate Valid(st: TermState) {
    st.width * st.height >= 0 && |st.lastFrame| == st.width * st.height
  }

  /** The cache slot of local cell (x, y), row-major. */
  function Slot(width: int, x: int, y: int): int {
    y * width + x
  }

  lemma {:induction false} SlotInRange(width: int, height: int, x: int, y: int)
    requires 0 <= x < width && 0 <= y < height
    ensures 0 <= Slot(width, x, y) < width * height
  {
    assert y * width >= 0;
    assert y * width <= (height - 1) * width by {
      assert (height - 1 - y) * width >= 0;
    }
    assert (height - 1) * width + width == width * height;
  }

  /** Distinct cells of a frame never share a cache slot. */
  lemma {:induction false} SlotInjective(width: int, x1: int, y1: int, x2: int, y2: int)
    requires 0 <= x1 < width && 0 <= x2 < width
    requires Slot(width, x1, y1) == Slot(width, x2, y2)
    ensures x1 == x2 && y1 == y2
  {
    if y1 > y2 {
      RowGap(y1 - y2, width, y1, y2);
      assert false;
    } else if y2 > y1 {
      RowGap(y2 - y1, width, y2, y1);
      assert false;
    }
  }

  lemma RowGap(d: int, width: int, hi: int, lo: int)
    requires d >= 1 && width >= 0 && hi - lo == d
    ensures hi * width - lo * width >= width
  {
    assert hi * width - lo * width == d * width;
    assert d * width == (d - 1) * width + width;
    assert (d - 1) * width >= 0;
  }

  /** Records the new frame dimensions. When either changed, the frame is
      marked resized, the buffer capacity is recomputed and a fresh cache is
      allocated whose contents are whatever `heap` says (uninitialised
      memory); a negative size request fails. The write position restarts at
      zero either way. */
  function SetupFrame(st: TermState, w: int, h: int, maxColourLen: nat, heap: nat -> Cell): (r: Option<TermState>)
    requires Valid(st)
    ensures r.None? <==> (w != st.width || h != st.height) && OppositeSigns(w, h)
    ensures r.Some? ==>
              && Valid(r.value)
              && r.value.width == w && r.value.height == h
              && (r.value.resize <==> w != st.width || h != st.height)
              && r.value.buffer == []
    ensures r.Some? && !r.value.resize ==>
              r.value.lastFrame == st.lastFrame && r.value.size == st.size
    ensures r.Some? && r.value.resize ==>
              r.value.size == w * h * (PosFormatSize + maxColourLen)
    ensures r.Some? && Sized(st, maxColourLen) ==> Sized(r.value, maxColourLen)
  {
    var resize := w != st.width || h != st.height;
    if !resize then
      Some(st.(resize := false, buffer := []))
    else if w * h < 0 then
      None
    else
      var n: nat := w * h;
      Some(TermState(w, h, true, seq(n, i requires 0 <= i => heap(i)), [], n * (PosFormatSize + maxColourLen)))
  }

  datatype Out = Out(st: TermState, ok: bool)

  /** Writes cell c at local (x, y) when it differs from the cached cell or
      the frame was resized: the cache slot takes the new cell and the buffer
      grows by the cursor control and the codec's text for the cell. Fails
      when the buffer has reached its capacity. An unchanged cell writes
      nothing. */
  function TerminalOut(st: TermState, c: Cell, x: int, y: int, mode: int, codec: Codec): (r: Out)
    requires Valid(st) && 0 <= x < st.width && 0 <= y < st.height
    ensures Valid(r.st)
    ensures r.st.width == st.width && r.st.height == st.height && r.st.resize == st.resize && r.st.size == st.size
    ensures var slot := Slot(st.width, x, y);
            0 <= slot < st.width * st.height == |st.lastFrame| &&
            var emit := !CellEq(codec.colourEq, st.lastFrame[slot], c) || st.resize;
            && (emit ==>
                  && r.st.lastFrame[slot] == c
                  && r.st.buffer == st.buffer + PosStr(x, y) + codec.colourStr(c, mode)
                  && (r.ok <==> |r.st.buffer| < st.size))
            && (!emit ==> r.st == st && r.ok)
            && (forall i :: 0 <= i < |st.lastFrame| && i != slot ==> r.st.lastFrame[i] == st.lastFrame[i])
  {
    SlotInRange(st.width, st.height, x, y);
    var slot := Slot(st.width, x, y);
    if !CellEq(codec.colourEq, st.lastFrame[slot], c) || st.resize then
      var st' := st.(lastFrame := st.lastFrame[slot := c],
                     buffer := st.buffer + PosStr(x, y) + codec.colourStr(c, mode));
      Out(st', |st'.buffer| < st'.size)
    else
      Out(st, true)
  }

  /** After a write the cache agrees with the cell, so writing the same cell
      again without a resize emits nothing and changes nothing. */
  lemma RepeatWriteIsSilent(st: TermState, c: Cell, x: int, y: int, mode: int, codec: Codec)
    requires Valid(st) && 0 <= x < st.width && 0 <= y < st.height
    requires Reflexive(codec.colourEq) && !st.resize
    ensures var st1 := TerminalOut(st, c, x, y, mode, codec).st;
            TerminalOut(st1, c, x, y, mode, codec) == Out(st1, true)
  {
    SlotInRange(st.width, st.height, x, y);
  }
}

=== FILE: terrain.dfy ===
/** World lookup and the edge-aware glyph choice. */
module Terrain {
  import opened RenderTypes

  /** The terrain code at (x, y); an absent column or a row outside the
      column reads as the void code. */
  function GetBlock(world: World, x: int, y: int): (k: char)
    ensures x in world && 0 <= y < |world[x]| ==> k == world[x][y]
    ensures x !in world || y < 0 || y >= |world[x]| ==> k == Void
  {
    if x in world && 0 <= y < |world[x]| then world[x][y] else Void
  }

  /** A neighbour counts as solid only when it is not the void code. */
  predicate SolidAt(world: World, cat: Catalog, x: int, y: int) {
    var k := GetBlock(world, x, y);
    k != Void && cat(k).solid
  }

  /** The glyph of the block `pixel` at (x, y). A block resting on solid
      ground shows its base glyph; an exposed block shows its left variant
      when the left neighbour is solid, else its right variant when the right
      neighbour is solid; a void variant is never chosen. */
  function GetChar(world: World, cat: Catalog, x: int, y: int, pixel: BlockData): (ch: char)
    ensures SolidAt(world, cat, x, y + 1) ==> ch == pixel.character
    ensures !SolidAt(world, cat, x, y + 1) && SolidAt(world, cat, x - 1, y) && pixel.characterLeft != Void
            ==> ch == pixel.characterLeft
    ensures !SolidAt(world, cat, x, y + 1)
            && !(SolidAt(world, cat, x - 1, y) && pixel.characterLeft != Void)
            && SolidAt(world, cat, x + 1, y) && pixel.characterRight != Void
            ==> ch == pixel.characterRight
    ensures ch != pixel.character ==>
              && ch != Void
              && !SolidAt(world, cat, x, y + 1)
              && ((ch == pixel.characterLeft && SolidAt(world, cat, x - 1, y))
                  || (ch == pixel.characterRight && SolidAt(world, cat, x + 1, y)))
  {
    if SolidAt(world, cat, x, y + 1) then pixel.character
    else if SolidAt(world, cat, x - 1, y) && pixel.characterLeft != Void then pixel.characterLeft
    else if SolidAt(world, cat, x + 1, y) && pixel.characterRight != Void then pixel.characterRight
    else pixel.character
  }
}

=== FILE: types.dfy ===
/** Value types shared by the renderer: colours, terrain metadata, the
    printable cell, per-frame settings, the scene handed in by the host, and
    the interface of the colour codec, which is not part of this model. */
module RenderTypes {

  datatype Option<+T> = None | Some(value: T)

  /** An RGB triple; channels are nominally in [0, 1]. */
  datatype Rgb = Rgb(r: real, g: real, b: real)

  /** A colour that may be absent. The renderer encodes absence in-band as
      r = -1; here absence is a constructor of its own, and every place the
      renderer tests r becomes a test of `Known?`. The renderer leaves g and b
      of an absent colour uninitialised; one `Unset` value stands for all of
      them, which matches the code when its colour comparison ignores g and b
      whenever r = -1. A `Known` colour stands for r >= 0 only. */
  datatype Colour = Unset | Known(rgb: Rgb)

  predicate InUnitRange(v: real) {
    0.0 <= v <= 1.0
  }

  predicate ValidRgb(c: Rgb) {
    InUnitRange(c.r) && InUnitRange(c.g) && InUnitRange(c.b)
  }

  /** Perceived brightness, weighted with the ITU-R BT.709 luma coefficients. */
  function Luma(c: Rgb): (y: real)
    ensures ValidRgb(c) ==> InUnitRange(y)
    ensures c.r == c.g == c.b ==> y == c.r
  {
    0.2126 * c.r + 0.7152 * c.g + 0.0722 * c.b
  }

  function Min(a: real, b: real): real {
    if a <= b then a else b
  }

  /** Terrain codes are single characters; code 0 is the void block. */
  const Void: char := 0 as char

  /** Static metadata of one terrain code. */
  datatype BlockData = BlockData(
    solid: bool,
    character: char,
    characterLeft: char,
    characterRight: char,
    fg: Colour,
    bg: Colour,
    style: int)

  /** The terrain catalog: total over terrain codes, including the void code. */
  type Catalog = char -> BlockData

  /** The sparse world: world-x to the column of terrain codes, indexed by world-y. */
  type World = map<int, seq<char>>

  /** One computed output cell. */
  datatype Cell = Cell(character: char, fg: Colour, bg: Colour, style: int)

  datatype Settings = Settings(
    terminalOutput: bool,
    neopixelsOutput: bool,
    fancyLights: bool,
    colourMode: int)

  /** A light source. `x` is in screen columns, `y` in world rows. */
  datatype Light = Light(x: int, y: int, z: int, radius: int, colour: Rgb, distance: real)

  /** A foreground object overriding the terrain at exactly one cell. */
  datatype FgObject = FgObject(x: int, y: int, ch: char, colour: Colour)

  /** A background object, checked before the sky. */
  datatype BkObject = BkObject(x: int, y: int, width: int, height: int, colour: Colour)

  /** The colour codec. Its conversions are not part of this model, so they
      are carried as opaque values and functions. A codec stands for one
      render call: the fancy functions may depend on that call's `day`,
      lights and sky colour, which stay fixed while the call runs.
      - `cyan`: the highlight colour of the simple lighting mode;
      - `colourEq`: colour equality used by the frame diff;
      - `colourStr`: the escape text for one cell in a colour mode;
      - `maxColourCodeLen`: the longest text `colourStr` may produce;
      - `fancyBlockLight`: the HSV shading of a terrain colour at screen
        column x, world row y, with the viewport's left edge `left` (it reads
        the slice height of column left + x and the masks of the lights);
      - `fancyOpenSky`: the HSV blend of lights over the open sky at (x, y). */
  datatype Codec = Codec(
    cyan: Rgb,
    colourEq: (Colour, Colour) -> bool,
    colourStr: (Cell, int) -> string,
    maxColourCodeLen: nat,
    fancyBlockLight: (int, int, int, Rgb) -> Rgb,
    fancyOpenSky: (int, int) -> Colour)

  /** Everything one render call reads besides the viewport. */
  datatype Scene = Scene(
    world: World,
    slices: map<int, int>,
    objects: seq<FgObject>,
    bkObjects: seq<BkObject>,
    skyColour: Colour,
    lights: seq<Light>,
    settings: Settings,
    cat: Catalog,
    codec: Codec)

  ghost predicate Reflexive(eq: (Colour, Colour) -> bool) {
    forall c :: eq(c, c)
  }

  /** Structural cell equality, with colours compared by the codec. */
  function CellEq(eq: (Colour, Colour) -> bool, a: Cell, b: Cell): (same: bool)
    ensures Reflexive(eq) && a == b ==> same
  {
    && a.character == b.character
    && eq(a.fg, b.fg)
    && eq(a.bg, b.bg)
    && a.style == b.style
  }
}
